=== FILE: README.md ===
# safedown shutdown actions in Dafny

This project models the `ShutdownActions` coordinator of the Go package safedown
(`safedown.go`). A `ShutdownActions` value collects shutdown actions. It runs them exactly
once, in insertion order (`FirstInFirstDone`) or in reverse insertion order
(`FirstInLastDone`). The run starts either because a watched OS signal arrived, which also
calls the on-signal hook, or because `Shutdown` was called explicitly.

The model is a sequential state machine over an immutable record:

- `Safedown.State` holds these parts:
  - `initialised`, which stands for `stopCh != nil`
  - `stopClosed`, which stands for `stopOnce` having run
  - `listenerArmed`, true while the goroutine from `start` is still waiting in its `select`
  - `shutdownDone`, which stands for `shutdownOnce` having run
  - the `order`
  - the `actions`, as opaque ids
  - the optional `hook`
  - the `watched` signals
- Every Go function is a pure function of the state. `Initialise`, `NewShutdownActions`,
  `AddActions`, `SetOnSignal` and `Shutdown` are modelled, and so are the internal
  `closeStopCh` (`CloseStop`), `onSignal` (`OnSignal`) and `shutdown` (`RunShutdown`).
  The functions that run actions or call the hook also return a trace of
  `HookCalled(hook, signal)` and `Ran(action)` events.
- A Go panic becomes a `Failure` that leaves the state as it was. This covers initialising
  twice, and calling `Shutdown` before `Initialise`.
- The goroutine body started by `start` is one atomic step, `ListenerFires(sig)`. It happens
  in two cases. With `Some(g)`, a watched signal `g` arrived. With `None`, the stop channel is
  closed and the listener received nothing. Stop listening, close stop, call `onSignal`, then
  `shutdown` all happen in that one step.
- `Lifecycle.Exec` runs any sequence of these steps. Goroutine interleaving becomes "any
  sequence of operations", so the at-most-once and hook properties are lemmas over every
  sequence.

The `sync.Once` behaviour is modelled closely. The loop in `shutdown` is modelled index by
index: position `i`, or position `l - i - 1` for `FirstInLastDone`. `Ordering.Schedule` is
an independent reference for each order. The Go zero value of `Order` is `false`, which is
`FirstInLastDone`, so `Safedown.Zero` carries that order.

Behaviour worth knowing, which the model keeps as the code has it:

- `AddActions` and `SetOnSignal` make no initialisation check. Actions can be added to a
  zero value before `Initialise`, and `Initialise` keeps them.
- `Initialise` with no signals closes stop at once and starts no listener.
- The listener can wake with `None` only once stop is closed. The model lets a watched signal
  wake it at any step while it is still armed, even after an explicit `Shutdown` has closed
  stop. In Go, a listener already parked in its `select` when stop closes takes the stop
  case. A signal wins only if it was already pending when the `select` ran, since `select`
  chooses at random among ready cases. In the model such a late wake-up calls the hook after
  the `Shutdown` step's whole run. The `Shutdown` call itself never calls the hook.

Actions added after the run are appended to the list, but they never run.

## Model

| member | source | states |
|---|---|---|
| `Ordering.LoopFromFollowsSchedule` | safedown.go:135-142 | From any iteration `i` on, the `shutdown` loop invokes exactly the tail of the reference schedule from position `i` (proved by induction over the loop). |
| `Ordering.LoopFollowsSchedule` | safedown.go:135-142 | The whole loop invokes the actions in insertion order for `FirstInFirstDone` and in reverse insertion order for `FirstInLastDone`. |
| `Safedown.ZeroValid` | safedown.go:20-28 | The zero `ShutdownActions` value is uninitialised, has order `FirstInLastDone`, and satisfies the invariant that the lifecycle lemmas assume. |
| `Safedown.CloseStop` | safedown.go:90-94 | Closing stop leaves stop closed and changes no other part of the state. |
| `Safedown.CloseStopIdempotent` | safedown.go:90-94 | Any positive number of `closeStopCh` calls gives the same state as one call, with stop closed. |
| `Safedown.OnSignal` | safedown.go:97-103 | The hook is called at most once, and it is called if and only if both the signal and the hook are non-nil. When it is called, it receives that signal. |
| `Safedown.RunShutdown` | safedown.go:132-145 | The first call runs exactly the current actions, as `Ran` events in the configured order. Every later call runs nothing. Only the once-flag changes. |
| `Safedown.Initialise` | safedown.go:45-63 | Fails with `InitialisedTwice` if and only if the value is already initialised. Otherwise it sets the order, records the given signals as the ones the listener watches, and keeps the actions and hook. From a valid state it gives a valid state in which stop is closed if and only if there are no signals, and the listener is armed if and only if there are some. |
| `Safedown.NewShutdownActions` | safedown.go:33-37 | Always succeeds. The result is an initialised, valid value with the given order, watching exactly the given signals, with no actions, no hook, and no run yet. Stop is closed if and only if there are no signals, and the listener is armed if and only if there are signals. |
| `Safedown.AddActions` | safedown.go:66-68 | Appends the new actions after the existing ones, keeps every earlier entry, and changes nothing else, whether or not the value is initialised. |
| `Safedown.SetOnSignal` | safedown.go:71-75 | The hook becomes the given one, or none when it is nil. Nothing else changes. |
| `Safedown.Shutdown` | safedown.go:78-87 | Fails with `NotInitialised` if and only if the value is uninitialised. Otherwise it closes stop, marks the run done, and never calls the hook. It runs the actions in the configured order unless they have already run, in which case it runs nothing. |
| `Safedown.ListenerFires` | safedown.go:112-128 | The step is possible if and only if the listener is armed and either a watched signal arrived, or nothing arrived and stop is closed. The listener disarms, stop closes and the run is marked done. The hook is called once with the signal if and only if a signal arrived and a hook is set. No `Ran` event comes before the hook call. Actions run as in `Shutdown`. |
| `Safedown.NewListenerWakesOnGivenSignals` | safedown.go:30-37 | For a new value with a hook set and actions added, the listener can wake on a signal if and only if that signal is one of those given. It then calls the hook, if one is set, with that signal, and runs the added actions in the configured order. |
| `Safedown.ShutdownReleasesListener` | safedown.go:115-127 | After an explicit `Shutdown`, a waiting listener can wake with no signal. It then calls no hook, runs nothing, and stops waiting. |
| `Lifecycle.MisuseChangesNothing` | safedown.go:45-87 | A second `Initialise`, or a `Shutdown` before `Initialise`, fails with its own fault and leaves the state and trace unchanged. |
| `Lifecycle.StepEffects` | safedown.go:45-145 | Any single step keeps the state valid. It only appends actions, and freezes the order and watched signals once initialised. It never re-arms a stopped listener and never clears the once-flag. It runs either nothing or the full schedule of the current actions, and calls the hook at most once, only from an armed listener, with a watched signal. A step that starts the run is an explicit `Shutdown` or the listener receiving a watched signal. |
| `Lifecycle.ExecFrame` | safedown.go:45-145 | Any sequence of steps keeps the state valid. It preserves earlier actions as a prefix, keeps the order and watched signals once initialised, and keeps the run flag. A listener that has stopped is never armed again. |
| `Lifecycle.NoRunAfterDone` | safedown.go:133-144 | Once `shutdownOnce` has fired, no sequence of later steps runs any action. |
| `Lifecycle.RunsAtMostOnce` | safedown.go:132-145 | Over any sequence of steps, the `Ran` trace is empty unless this sequence performed the run. If it did, the trace is exactly one run, in the configured order, of `RunSnapshot`: the actions held just before the step that performed the run. That list extends the actions present at the start and is a prefix of the final actions. Actions added after the run lie beyond it, so they never appear. |
| `Lifecycle.RunOnlyWhenTriggered` | safedown.go:78-128 | The actions run only because of a trigger. A sequence of steps that performs the run contains an explicit `Shutdown`, or the listener receiving one of the watched signals. The listener waking on the closed stop channel never starts a run itself, because in the model stop is closed only by a `Shutdown` step, which runs the actions in the same step, or by `Initialise` with no signals, which starts no listener. |
| `Lifecycle.HookAtMostOnce` | safedown.go:112-128 | Over any sequence of steps, the hook is called at most once. It is never called once the listener of an initialised value has stopped, and it is only called with a watched signal. |
| `Lifecycle.HookIsLastSet` | safedown.go:71-75 | After any sequence of steps, the hook held is the argument of the last `SetOnSignal`, or the starting hook if there was none. |
| `Lifecycle.FiringCallsLatestHook` | safedown.go:97-127 | When the listener fires after any sequence of steps, it calls the most recently set hook with the received signal, and only if a signal arrived and that hook is set. |
| `Scenarios.FirstInFirstDoneRunsInInsertionOrder` | safedown_test.go:62-74 | Three actions added under `FirstInFirstDone`, then `Shutdown`, run in the order they were added. |
| `Scenarios.FirstInLastDoneRunsInReverseOrder` | safedown_test.go:76-88 | Three actions added under `FirstInLastDone`, then `Shutdown`, run in reverse order of addition. |
| `Scenarios.SignalCallsHook` | safedown_test.go:43-60 | A watched interrupt with a hook set calls the hook once with that interrupt. |
| `Scenarios.DeferredShutdownSkipsHook` | safedown_test.go:14-37 | In the package example, the deferred `Shutdown` runs the last-added action first and never calls the hook. The listener, woken by the closed stop channel, adds no events. |
| `Scenarios.SignalThenShutdown` | examples_test.go:15-58 | A received SIGTERM calls the hook and then runs the registered action. As an extra check beyond the example, a later `Shutdown` runs nothing. |
| `Scenarios.UnwatchedSignalIgnored` | safedown.go:106-118 | A signal the listener was not started on does not wake it, so no hook is called and nothing runs. |

## Left out

- `signal.Notify`, `signal.Stop` and OS signal delivery are foreign calls. The model keeps
  only which signal, if any, the listener receives. That only watched signals wake the
  listener is an assumption, written into `Safedown.Wakes`; nothing proves it.
- Goroutines, channels, `sync.Mutex` and the blocking of a second `sync.Once.Do` caller
  until the first caller finishes are out of scope. Concurrency is modelled as interleavings
  of atomic steps. The unsynchronised slice access in `AddActions` is a data race and is not
  modelled.
- `Safedown.Shutdown` and `Safedown.ListenerFires` are atomic steps, so the model keeps the
  listener's hook call and an explicit `Shutdown`'s run apart. In Go the hook is called on the
  listener goroutine under the hook mutex only, while `Shutdown` runs the loop on the
  caller's goroutine under `shutdownOnce`. Nothing orders the two, so Go can emit a hook call
  between two `Ran` events of that run, or before all of them. No sequence of model steps
  produces that interleaving. The proved properties are about the `Ran` projection, the hook
  projection, and the order inside one firing, and those still hold for such Go traces. What
  the model does not describe is where a hook call falls relative to a concurrent explicit
  run.
- `Safedown.Shutdown` is one atomic step. In Go, the woken listener can win the race between
  `closeStopCh` and `shutdown` inside `Shutdown` and run the actions itself. The events are
  the same either way, so the model does not split the step.
- The effects of actions and hooks are not modelled; they are opaque ids. Re-entrant calls
  from an action or hook into the same value are not modelled either. In Go, most of them
  do not block: `AddActions` takes no lock, so an action or hook may call it. In a run started by
  `Shutdown`, or by the listener after the hook has returned, the hook mutex is free, so an
  action may also call `SetOnSignal`. A hook that calls `Shutdown` runs the actions inside the
  hook, because stop is already closed and `shutdownOnce` is not yet held. Three calls
  deadlock. An action that calls `Shutdown` nests `shutdownOnce.Do`. A hook that calls
  `SetOnSignal` needs the hook mutex it is called under. An action that calls `SetOnSignal`
  during a run the hook started through `Shutdown` needs that same mutex, which is still
  held. A panicking action is not
  modelled: in Go it would abort the remaining actions while `shutdownOnce` still counts as
  done.
- An unrecovered Go panic ends the program. `Lifecycle.Exec` instead skips a failing step as
  if the caller had recovered, which is where the "state unchanged" reading of a panic comes
  from.
- The HTTP server example is not part of this model. Neither are the test helpers that
  send signals to the process and set timeouts. Where a test or example sends a real signal
  or waits on a timer, the signal delivery and the timing are abstracted: the signal is a
  `ListenerFires` step. The observable outcome is kept as a scenario lemma, as in
  `Scenarios.SignalCallsHook` and `Scenarios.SignalThenShutdown`.

=== FILE: events.dfy ===
/** Opaque identities of actions, hooks and signals, and the events a step emits. */
module Events {

  /** An action registered through AddActions; what it does is not modelled. */
  type ActionId = nat

  /** A function passed to SetOnSignal; what it does is not modelled. */
  type HookId = nat

  /** An OS signal, identified by its number. */
  type Signal = nat

  /** An observable call: the on-signal hook called with a signal, or one shutdown action run. */
  datatype Event = HookCalled(hook: HookId, sig: Signal) | Ran(id: ActionId)

  /** The trace of running the given actions one after the other. */
  function RanEvents(ids: seq<ActionId>): (t: seq<Event>)
    ensures |t| == |ids|
    ensures forall k :: 0 <= k < |t| ==> t[k] == Ran(ids[k])
  {
    if ids == [] then [] else [Ran(ids[0])] + RanEvents(ids[1..])
  }

  /** The actions a trace runs, in the order it runs them. */
  function RanIds(t: seq<Event>): seq<ActionId>
  {
    if t == [] then []
    else (if t[0].Ran? then [t[0].id] else []) + RanIds(t[1..])
  }

  /** The hook calls of a trace, in order. */
  function Hooks(t: seq<Event>): (h: seq<Event>)
    ensures forall e :: e in h ==> e.HookCalled? && e in t
  {
    if t == [] then []
    else (if t[0].HookCalled? then [t[0]] else []) + Hooks(t[1..])
  }

  lemma {:induction false} RanIdsAppend(a: seq<Event>, b: seq<Event>)
    ensures RanIds(a + b) == RanIds(a) + RanIds(b)
  {
    if a != [] {
      assert (a + b)[0] == a[0];
      assert (a + b)[1..] == a[1..] + b;
      RanIdsAppend(a[1..], b);
    } else {
      assert a + b == b;
    }
  }

  lemma {:induction false} HooksAppend(a: seq<Event>, b: seq<Event>)
    ensures Hooks(a + b) == Hooks(a) + Hooks(b)
  {
    if a != [] {
      assert (a + b)[0] == a[0];
      assert (a + b)[1..] == a[1..] + b;
      HooksAppend(a[1..], b);
    } else {
      assert a + b == b;
    }
  }

  /** A trace of action runs names back exactly the actions it ran and calls no hook. */
  lemma {:induction false} RanEventsRoundTrip(ids: seq<ActionId>)
    ensures RanIds(RanEvents(ids)) == ids
    ensures Hooks(RanEvents(ids)) == []
  {
    if ids != [] {
      RanEventsRoundTrip(ids[1..]);
      assert RanEvents(ids)[1..] == RanEvents(ids[1..]);
    }
  }
}

=== FILE: lifecycle.dfy ===
/**
  Concurrent use of a ShutdownActions value as an arbitrary interleaving of its atomic
  operations. A step that panics or cannot happen leaves the state as it was and emits nothing,
  so every sequence of operations can be executed and reasoned about as a whole.
 */
module Lifecycle {
  import opened Wrappers
  import opened Ordering
  import opened Events
  import opened Safedown

  /** One call into the value, or the listener goroutine completing its select. */
  datatype Op =
    | DoInitialise(order: Order, signals: seq<Signal>)
    | DoAddActions(ids: seq<ActionId>)
    | DoSetOnSignal(hook: Option<HookId>)
    | DoShutdown
    | DoListenerFires(sig: Option<Signal>)

  function Step(s: State, op: Op): Result<Outcome, Fault>
  {
    match op
    case DoInitialise(order, signals) =>
      (match Initialise(s, order, signals)
       case Success(t) => Success(Outcome(t, []))
       case Failure(f) => Failure(f))
    case DoAddActions(ids) => Success(Outcome(AddActions(s, ids), []))
    case DoSetOnSignal(hook) => Success(Outcome(SetOnSignal(s, hook), []))
    case DoShutdown => Shutdown(s)
    case DoListenerFires(sig) => ListenerFires(s, sig)
  }

  /** A step whose failure (a recovered panic, or a listener that cannot wake) changes nothing. */
  function Apply(s: State, op: Op): Outcome
  {
    match Step(s, op)
    case Success(o) => o
    case Failure(_) => Outcome(s, [])
  }

  /** The final state and the concatenated trace of a sequence of steps. */
  function Exec(s: State, ops: seq<Op>): Outcome
    decreases |ops|
  {
    if ops == [] then Outcome(s, [])
    else
      var first := Apply(s, ops[0]);
      var rest := Exec(first.state, ops[1..]);
      Outcome(rest.state, first.trace + rest.trace)
  }

  /** The misuse checks: a second Initialise and a Shutdown before Initialise fail and change nothing. */
  lemma MisuseChangesNothing(s: State, op: Op)
    requires (op.DoInitialise? && s.initialised) || (op.DoShutdown? && !s.initialised)
    ensures Step(s, op).Failure?
    ensures op.DoInitialise? ==> Step(s, op).error == InitialisedTwice
    ensures op.DoShutdown? ==> Step(s, op).error == NotInitialised
    ensures Apply(s, op) == Outcome(s, [])
  {
  }

  /** The steps that can start the run: an explicit Shutdown, or the listener receiving one of
      the watched signals. */
  predicate Triggers(op: Op, watched: seq<Signal>)
  {
    op.DoShutdown? || (op.DoListenerFires? && op.sig.Some? && op.sig.value in watched)
  }

  /** What a single step does to the parts of the state the lifecycle properties rely on. */
  lemma StepEffects(s: State, op: Op)
    requires Valid(s)
    ensures var a := Apply(s, op);
      && Valid(a.state)
      && s.actions <= a.state.actions
      && (s.initialised ==> a.state.initialised && a.state.order == s.order && a.state.watched == s.watched)
      && (s.shutdownDone ==> a.state.shutdownDone)
      && (s.initialised && !s.listenerArmed ==> !a.state.listenerArmed)
      && (!s.shutdownDone && a.state.shutdownDone ==>
            s.initialised && a.state.actions == s.actions && a.state.order == s.order
            && RanIds(a.trace) == Schedule(s.order, s.actions))
      && (!(!s.shutdownDone && a.state.shutdownDone) ==> RanIds(a.trace) == [])
      && |Hooks(a.trace)| <= 1
      && (|Hooks(a.trace)| == 1 ==> s.listenerArmed && !a.state.listenerArmed)
      && (forall e :: e in Hooks(a.trace) ==> e.sig in s.watched)
      && (!s.shutdownDone && a.state.shutdownDone ==> Triggers(op, s.watched))
  {
  }

  /** A sequence of steps keeps the state valid and only ever grows or freezes its parts. */
  lemma {:induction false} ExecFrame(s: State, ops: seq<Op>)
    requires Valid(s)
    ensures var f := Exec(s, ops).state;
      && Valid(f)
      && s.actions <= f.actions
      && (s.initialised ==> f.initialised && f.order == s.order && f.watched == s.watched)
      && (s.shutdownDone ==> f.shutdownDone)
      && (s.initialised && !s.listenerArmed ==> !f.listenerArmed)
    decreases |ops|
  {
    if ops != [] {
      StepEffects(s, ops[0]);
      ExecFrame(Apply(s, ops[0]).state, ops[1..]);
    }
  }

  /** Once shutdownOnce has fired, no later step runs an action. */
  lemma {:induction false} NoRunAfterDone(s: State, ops: seq<Op>)
    requires Valid(s) && s.shutdownDone
    ensures RanIds(Exec(s, ops).trace) == []
    decreases |ops|
  {
    if ops != [] {
      var a := Apply(s, ops[0]);
      StepEffects(s, ops[0]);
      NoRunAfterDone(a.state, ops[1..]);
      RanIdsAppend(a.trace, Exec(a.state, ops[1..]).trace);
    }
  }

  /** The actions held just before the step that performs the run, or the final actions when no
      step of `ops` performs it. */
  function RunSnapshot(s: State, ops: seq<Op>): seq<ActionId>
    decreases |ops|
  {
    if ops == [] || s.shutdownDone then s.actions
    else if Apply(s, ops[0]).state.shutdownDone then s.actions
    else RunSnapshot(Apply(s, ops[0]).state, ops[1..])
  }

  /** At-most-once execution: over any interleaving of calls and listener firings, the actions run
      form either nothing or one single run, in the configured order, of the actions registered
      when that run started. Earlier entries are kept and later additions never run. */
  lemma {:induction false} RunsAtMostOnce(s: State, ops: seq<Op>)
    requires Valid(s)
    ensures var x := Exec(s, ops);
      !s.shutdownDone && x.state.shutdownDone ==>
        && s.actions <= RunSnapshot(s, ops) <= x.state.actions
        && RanIds(x.trace) == Schedule(x.state.order, RunSnapshot(s, ops))
    ensures var x := Exec(s, ops);
      !(!s.shutdownDone && x.state.shutdownDone) ==> RanIds(x.trace) == []
    decreases |ops|
  {
    if ops == [] {
      return;
    }
    if s.shutdownDone {
      NoRunAfterDone(s, ops);
      return;
    }
    var a := Apply(s, ops[0]);
    var y := Exec(a.state, ops[1..]);
    var x := Exec(s, ops);
    assert x.state == y.state && x.trace == a.trace + y.trace;
    StepEffects(s, ops[0]);
    RanIdsAppend(a.trace, y.trace);
    if a.state.shutdownDone {
      NoRunAfterDone(a.state, ops[1..]);
      ExecFrame(a.state, ops[1..]);
      assert RunSnapshot(s, ops) == s.actions;
    } else {
      RunsAtMostOnce(a.state, ops[1..]);
    }
  }

  /** The actions run only because of an explicit Shutdown or a watched signal: a sequence of
      steps that performs the run contains such a trigger. */
  lemma {:induction false} RunOnlyWhenTriggered(s: State, ops: seq<Op>)
    requires Valid(s)
    ensures var f := Exec(s, ops).state;
      !s.shutdownDone && f.shutdownDone ==>
        exists i :: 0 <= i < |ops| && Triggers(ops[i], f.watched)
    decreases |ops|
  {
    if ops == [] || s.shutdownDone {
      return;
    }
    var a := Apply(s, ops[0]);
    var f := Exec(s, ops).state;
    assert f == Exec(a.state, ops[1..]).state;
    StepEffects(s, ops[0]);
    if a.state.shutdownDone {
      ExecFrame(a.state, ops[1..]);
      assert Triggers(ops[0], f.watched);
    } else {
      RunOnlyWhenTriggered(a.state, ops[1..]);
      if f.shutdownDone {
        var k :| 0 <= k < |ops[1..]| && Triggers(ops[1..][k], f.watched);
        assert Triggers(ops[k + 1], f.watched);
      }
    }
  }

  /** The hook is called at most once over any interleaving, never once the listener has stopped
      waiting, and only with a signal the listener was started on. */
  lemma {:induction false} HookAtMostOnce(s: State, ops: seq<Op>)
    requires Valid(s)
    ensures var x := Exec(s, ops);
      && |Hooks(x.trace)| <= 1
      && (s.initialised && !s.listenerArmed ==> Hooks(x.trace) == [])
      && (|Hooks(x.trace)| == 1 ==> !x.state.listenerArmed)
      && (forall e :: e in Hooks(x.trace) ==> e.sig in x.state.watched)
    decreases |ops|
  {
    if ops == [] {
      return;
    }
    var a := Apply(s, ops[0]);
    var y := Exec(a.state, ops[1..]);
    StepEffects(s, ops[0]);
    HookAtMostOnce(a.state, ops[1..]);
    ExecFrame(a.state, ops[1..]);
    HooksAppend(a.trace, y.trace);
    assert Exec(s, ops).trace == a.trace + y.trace;
  }

  /** Reference reading of "the most recently set hook": the argument of the last SetOnSignal
      among `ops`, or `h` when there is none. */
  function LastHookSet(h: Option<HookId>, ops: seq<Op>): Option<HookId>
    decreases |ops|
  {
    if ops == [] then h
    else LastHookSet(if ops[0].DoSetOnSignal? then ops[0].hook else h, ops[1..])
  }

  /** Only SetOnSignal changes the hook, and it never fails. */
  lemma StepHook(s: State, op: Op)
    ensures Apply(s, op).state.hook == if op.DoSetOnSignal? then op.hook else s.hook
  {
  }

  /** The hook held after any sequence of steps is the one most recently set. */
  lemma {:induction false} HookIsLastSet(s: State, ops: seq<Op>)
    ensures Exec(s, ops).state.hook == LastHookSet(s.hook, ops)
    decreases |ops|
  {
    if ops != [] {
      StepHook(s, ops[0]);
      HookIsLastSet(Apply(s, ops[0]).state, ops[1..]);
    }
  }

  /** When the listener fires after any sequence of steps, it calls the most recently set hook,
      and only when it received a signal and a hook is set. */
  lemma FiringCallsLatestHook(s: State, ops: seq<Op>, sig: Option<Signal>)
    requires ListenerFires(Exec(s, ops).state, sig).Success?
    ensures var latest := LastHookSet(s.hook, ops);
      Hooks(ListenerFires(Exec(s, ops).state, sig).value.trace)
        == if sig.Some? && latest.Some? then [HookCalled(latest.value, sig.value)] else []
  {
    HookIsLastSet(s, ops);
  }
}

=== FILE: ordering.dfy ===
/** The two execution orders of safedown and the loop of `shutdown` that applies them. */
module Ordering {

  /** Go declares `Order` as a bool: FirstInFirstDone is true, FirstInLastDone is false. */
  datatype Order = FirstInFirstDone | FirstInLastDone

  /** The zero value of the Go bool `Order`, held by a ShutdownActions that was never initialised. */
  const ZeroOrder: Order := FirstInLastDone

  function Reverse<T>(s: seq<T>): (r: seq<T>)
    ensures |r| == |s|
    ensures forall i :: 0 <= i < |s| ==> r[i] == s[|s| - 1 - i]
  {
    if s == [] then [] else Reverse(s[1..]) + [s[0]]
  }

  /** Reference meaning of an order: insertion order, or insertion order reversed. */
  function Schedule<T>(order: Order, actions: seq<T>): seq<T>
  {
    match order
    case FirstInFirstDone => actions
    case FirstInLastDone => Reverse(actions)
  }

  /** The action that iteration `i` of the loop in `shutdown` invokes. */
  function Pick<T>(order: Order, actions: seq<T>, i: nat): T
    requires i < |actions|
  {
    if order == FirstInFirstDone then actions[i] else actions[|actions| - i - 1]
  }

  /** The invocations made by iterations i, i + 1, ..., l - 1 of that loop, where l = |actions|. */
  function LoopFrom<T>(order: Order, actions: seq<T>, i: nat): seq<T>
    requires i <= |actions|
    decreases |actions| - i
  {
    if i == |actions| then [] else [Pick(order, actions, i)] + LoopFrom(order, actions, i + 1)
  }

  /** Every invocation the loop makes, in the order it makes them. */
  function RunOrder<T>(order: Order, actions: seq<T>): seq<T>
  {
    LoopFrom(order, actions, 0)
  }

  /** The loop from iteration `i` on invokes exactly the tail of the schedule from position `i`. */
  lemma {:induction false} LoopFromFollowsSchedule<T>(order: Order, actions: seq<T>, i: nat)
    requires i <= |actions|
    ensures LoopFrom(order, actions, i) == Schedule(order, actions)[i..]
    decreases |actions| - i
  {
    if i < |actions| {
      LoopFromFollowsSchedule(order, actions, i + 1);
      var sched := Schedule(order, actions);
      assert sched[i] == Pick(order, actions, i);
      assert sched[i..] == [sched[i]] + sched[i + 1..];
    }
  }

  /** The loop invokes the actions in insertion order or in reverse insertion order, as the order says. */
  lemma LoopFollowsSchedule<T>(order: Order, actions: seq<T>)
    ensures RunOrder(order, actions) == Schedule(order, actions)
    ensures order == FirstInFirstDone ==> RunOrder(order, actions) == actions
    ensures order == FirstInLastDone ==> RunOrder(order, actions) == Reverse(actions)
  {
    LoopFromFollowsSchedule(order, actions, 0);
  }
}

=== FILE: safedown.dfy ===
/**
  The ShutdownActions value of safedown.go as an immutable record, and each of its operations
  as a pure function. A Go panic is a `Failure` that leaves the caller's state as it was; the
  goroutine started by `start` becomes the single step `ListenerFires`.
 */
module Safedown {
  import opened Wrappers
  import opened Ordering
  import opened Events

  datatype State = State(
    initialised: bool,       // stopCh != nil
    stopClosed: bool,        // stopOnce has run, so stopCh is closed
    listenerArmed: bool,     // the goroutine started by `start` is still waiting in its select
    shutdownDone: bool,      // shutdownOnce has run
    order: Order,
    actions: seq<ActionId>,
    hook: Option<HookId>,    // onSignalFunc, None when nil
    watched: seq<Signal>)    // the signals `start` subscribed to

  /** The panics of the Go code, plus the listener step being impossible in the current state. */
  datatype Fault = InitialisedTwice | NotInitialised | ListenerNotWaiting

  /** The state after a step and the calls the step made, in order. */
  datatype Outcome = Outcome(state: State, trace: seq<Event>)

  /** The zero value `ShutdownActions{}`. */
  const Zero: State := State(false, false, false, false, ZeroOrder, [], None, [])

  /** What every state reachable from `Zero` satisfies. */
  predicate Valid(s: State)
  {
    && (!s.initialised ==> !s.stopClosed && !s.listenerArmed && !s.shutdownDone && s.watched == [])
    && (s.shutdownDone ==> s.stopClosed)
    && (s.initialised && !s.stopClosed ==> s.listenerArmed)
    && (s.listenerArmed ==> |s.watched| > 0)
    && (s.listenerArmed && s.stopClosed ==> s.shutdownDone)
  }

  /** The zero value is a state the lifecycle properties apply to. */
  lemma ZeroValid()
    ensures Valid(Zero)
    ensures !Zero.initialised && Zero.order == FirstInLastDone
  {
  }

  /** closeStopCh: stopOnce closes the channel on the first call; later calls change nothing. */
  function CloseStop(s: State): (r: State)
    ensures r.stopClosed
    ensures r.(stopClosed := s.stopClosed) == s
  {
    s.(stopClosed := true)
  }

  /** The state after `n` calls of closeStopCh. */
  function CloseStopTimes(s: State, n: nat): State
  {
    if n == 0 then s else CloseStop(CloseStopTimes(s, n - 1))
  }

  /** Closing stop any positive number of times is the same as closing it once. */
  lemma {:induction false} CloseStopIdempotent(s: State, n: nat)
    requires n >= 1
    ensures CloseStopTimes(s, n) == CloseStop(s)
    ensures CloseStopTimes(s, n).stopClosed
  {
    if n > 1 {
      CloseStopIdempotent(s, n - 1);
    }
  }

  /** onSignal: the hook is called with the signal only when both are non-nil. */
  function OnSignal(hook: Option<HookId>, sig: Option<Signal>): (t: seq<Event>)
    ensures |t| <= 1
    ensures |t| == 1 <==> sig.Some? && hook.Some?
    ensures forall e :: e in t ==> sig.Some? && hook.Some? && e == HookCalled(hook.value, sig.value)
  {
    match (hook, sig)
    case (Some(h), Some(g)) => [HookCalled(h, g)]
    case _ => []
  }

  /** shutdown: under shutdownOnce, the loop runs the actions present on the first call only. */
  function RunShutdown(s: State): (r: Outcome)
    ensures r.state.shutdownDone
    ensures r.state.(shutdownDone := s.shutdownDone) == s
    ensures s.shutdownDone ==> r.trace == []
    ensures !s.shutdownDone ==> r.trace == RanEvents(Schedule(s.order, s.actions))
  {
    if s.shutdownDone then Outcome(s, [])
    else
      LoopFollowsSchedule(s.order, s.actions);
      Outcome(s.(shutdownDone := true), RanEvents(RunOrder(s.order, s.actions)))
  }

  /** Initialise: refuses a value that is already initialised; otherwise fixes the order and
      either closes stop at once (no signals) or starts the listener on the signals. */
  function Initialise(s: State, order: Order, signals: seq<Signal>): (r: Result<State, Fault>)
    ensures r.Failure? <==> s.initialised
    ensures r.Failure? ==> r.error == InitialisedTwice
    ensures r.Success? ==>
      && r.value.initialised
      && r.value.order == order
      && r.value.actions == s.actions
      && r.value.hook == s.hook
      && r.value.shutdownDone == s.shutdownDone
      && r.value.watched == signals
    ensures r.Success? && Valid(s) ==>
      && Valid(r.value)
      && (r.value.stopClosed <==> |signals| == 0)
      && (r.value.listenerArmed <==> |signals| > 0)
  {
    if s.initialised then Failure(InitialisedTwice)
    else
      var ready := s.(initialised := true, order := order, watched := signals);
      if |signals| == 0 then Success(CloseStop(ready))
      else Success(ready.(listenerArmed := true))
  }

  /** NewShutdownActions: initialises a zero value, which cannot fail. */
  function NewShutdownActions(order: Order, signals: seq<Signal>): (s: State)
    ensures Valid(s)
    ensures s.initialised && !s.shutdownDone
    ensures s.order == order && s.actions == [] && s.hook == None
    ensures s.watched == signals
    ensures s.stopClosed <==> |signals| == 0
    ensures s.listenerArmed <==> |signals| > 0
  {
    Initialise(Zero, order, signals).value
  }

  /** AddActions: appends, keeping every earlier entry; it needs no initialisation. */
  function AddActions(s: State, ids: seq<ActionId>): (r: State)
    ensures r.actions == s.actions + ids
    ensures r.actions[..|s.actions|] == s.actions
    ensures r.(actions := s.actions) == s
  {
    s.(actions := s.actions + ids)
  }

  /** SetOnSignal: replaces the hook (None clears it); it needs no initialisation. */
  function SetOnSignal(s: State, hook: Option<HookId>): (r: State)
    ensures r.hook == hook
    ensures r.(hook := s.hook) == s
  {
    s.(hook := hook)
  }

  /** Shutdown: refuses an uninitialised value; otherwise closes stop and runs shutdown.
      It never calls the hook. */
  function Shutdown(s: State): (r: Result<Outcome, Fault>)
    ensures r.Failure? <==> !s.initialised
    ensures r.Failure? ==> r.error == NotInitialised
    ensures r.Success? ==> r.value.state == s.(stopClosed := true, shutdownDone := true)
    ensures r.Success? ==> Hooks(r.value.trace) == []
    ensures r.Success? ==> RanIds(r.value.trace) == if s.shutdownDone then [] else Schedule(s.order, s.actions)
  {
    if !s.initialised then Failure(NotInitialised)
    else
      var run := RunShutdown(CloseStop(s));
      RanEventsRoundTrip(Schedule(s.order, s.actions));
      Success(run)
  }

  /** The select of the listener can complete: a watched signal arrived, or stop is closed and
      the listener received nothing. */
  predicate Wakes(s: State, sig: Option<Signal>)
  {
    && s.listenerArmed
    && match sig
       case None => s.stopClosed
       case Some(g) => g in s.watched
  }

  /** The body of the goroutine started by `start`: stop listening, close stop, pass the received
      signal to onSignal, run shutdown. */
  function ListenerFires(s: State, sig: Option<Signal>): (r: Result<Outcome, Fault>)
    ensures r.Success? <==> Wakes(s, sig)
    ensures r.Failure? ==> r.error == ListenerNotWaiting
    ensures r.Success? ==>
      r.value.state == s.(listenerArmed := false, stopClosed := true, shutdownDone := true)
    ensures r.Success? ==>
      Hooks(r.value.trace) == if sig.Some? && s.hook.Some? then [HookCalled(s.hook.value, sig.value)] else []
    ensures r.Success? ==> RanIds(r.value.trace) == if s.shutdownDone then [] else Schedule(s.order, s.actions)
    ensures r.Success? ==>
      forall i, j :: 0 <= i < j < |r.value.trace| && r.value.trace[j].HookCalled? ==> !r.value.trace[i].Ran?
  {
    if !Wakes(s, sig) then Failure(ListenerNotWaiting)
    else
      var run := RunShutdown(CloseStop(s.(listenerArmed := false)));
      var called := OnSignal(s.hook, sig);
      RanEventsRoundTrip(Schedule(s.order, s.actions));
      HooksAppend(called, run.trace);
      RanIdsAppend(called, run.trace);
      Success(Outcome(run.state, called + run.trace))
  }

  /** A new value with a hook set and actions added: its listener wakes on a signal exactly when
      that signal was one of those given, and then calls the hook with it and runs the actions
      in the configured order. */
  lemma NewListenerWakesOnGivenSignals(order: Order, signals: seq<Signal>, hook: Option<HookId>,
                                       ids: seq<ActionId>, g: Signal)
    ensures var sa := AddActions(SetOnSignal(NewShutdownActions(order, signals), hook), ids);
      && (ListenerFires(sa, Some(g)).Success? <==> g in signals)
      && (g in signals ==>
            && RanIds(ListenerFires(sa, Some(g)).value.trace) == Schedule(order, ids)
            && Hooks(ListenerFires(sa, Some(g)).value.trace)
                 == if hook.Some? then [HookCalled(hook.value, g)] else [])
  {
    var sa := AddActions(SetOnSignal(NewShutdownActions(order, signals), hook), ids);
    assert sa.actions == ids && sa.hook == hook && sa.watched == signals && !sa.shutdownDone;
  }

  /** After an explicit Shutdown the waiting listener can wake without a signal; it then calls
      no hook and runs nothing more. */
  lemma ShutdownReleasesListener(s: State)
    requires s.initialised && s.listenerArmed
    ensures var after := Shutdown(s).value.state;
      && Wakes(after, None)
      && ListenerFires(after, None).value.trace == []
      && !ListenerFires(after, None).value.state.listenerArmed
  {
  }
}

=== FILE: scenarios.dfy ===
/** The behaviours the repository's tests and examples check, as concrete calls of the model. */
module Scenarios {
  import opened Wrappers
  import opened Ordering
  import opened Events
  import opened Safedown

  /** os.Interrupt (SIGINT) and syscall.SIGTERM on POSIX systems. */
  const Interrupt: Signal := 2
  const Terminate: Signal := 15

  /** FirstInFirstDone without signals: the action added first runs first. */
  lemma FirstInFirstDoneRunsInInsertionOrder(a1: ActionId, a2: ActionId, a3: ActionId)
    ensures var sa := NewShutdownActions(FirstInFirstDone, []);
      var added := AddActions(AddActions(AddActions(sa, [a1]), [a2]), [a3]);
      Shutdown(added).Success? && Shutdown(added).value.trace == [Ran(a1), Ran(a2), Ran(a3)]
  {
  }

  /** FirstInLastDone without signals: the action added last runs first. */
  lemma FirstInLastDoneRunsInReverseOrder(a1: ActionId, a2: ActionId, a3: ActionId)
    ensures var sa := NewShutdownActions(FirstInLastDone, []);
      var added := AddActions(AddActions(AddActions(sa, [a1]), [a2]), [a3]);
      Shutdown(added).Success? && Shutdown(added).value.trace == [Ran(a3), Ran(a2), Ran(a1)]
  {
    var sa := NewShutdownActions(FirstInLastDone, []);
    var added := AddActions(AddActions(AddActions(sa, [a1]), [a2]), [a3]);
    assert added.actions == [a1, a2, a3];
    assert Reverse([a1, a2, a3]) == [a3, a2, a1];
  }

  /** A watched signal with a hook set: the hook gets that signal, and there are no actions to run. */
  lemma SignalCallsHook(h: HookId)
    ensures var sa := SetOnSignal(NewShutdownActions(FirstInLastDone, [Interrupt]), Some(h));
      ListenerFires(sa, Some(Interrupt)).Success?
      && ListenerFires(sa, Some(Interrupt)).value.trace == [HookCalled(h, Interrupt)]
  {
  }

  /** The deferred Shutdown of the package example: two actions in reverse order, no hook call,
      and the listener, woken by the closed stop channel, adds nothing. */
  lemma DeferredShutdownSkipsHook(h: HookId, last: ActionId, first: ActionId)
    ensures var sa := SetOnSignal(NewShutdownActions(FirstInLastDone, [Terminate, Interrupt]), Some(h));
      var added := AddActions(AddActions(sa, [last]), [first]);
      && Shutdown(added).Success?
      && Shutdown(added).value.trace == [Ran(first), Ran(last)]
      && ListenerFires(Shutdown(added).value.state, None).Success?
      && ListenerFires(Shutdown(added).value.state, None).value.trace == []
  {
  }

  /** The signal example: SIGTERM arrives, the hook is called, then the registered action runs;
      a later Shutdown runs nothing again. */
  lemma SignalThenShutdown(h: HookId, cancel: ActionId)
    ensures var sa := SetOnSignal(NewShutdownActions(FirstInLastDone, [Terminate, Interrupt]), Some(h));
      var added := AddActions(sa, [cancel]);
      && ListenerFires(added, Some(Terminate)).Success?
      && ListenerFires(added, Some(Terminate)).value.trace == [HookCalled(h, Terminate), Ran(cancel)]
      && Shutdown(ListenerFires(added, Some(Terminate)).value.state).Success?
      && Shutdown(ListenerFires(added, Some(Terminate)).value.state).value.trace == []
  {
    var sa := SetOnSignal(NewShutdownActions(FirstInLastDone, [Terminate, Interrupt]), Some(h));
    var added := AddActions(sa, [cancel]);
    var after := added.(listenerArmed := false, stopClosed := true, shutdownDone := true);
    assert ListenerFires(added, Some(Terminate)) == Success(Outcome(after, [HookCalled(h, Terminate), Ran(cancel)])) by {
      assert added.actions == [cancel] && added.hook == Some(h) && !added.shutdownDone;
      assert Wakes(added, Some(Terminate));
      assert Reverse([cancel]) == [cancel];
      var run := RunShutdown(CloseStop(added.(listenerArmed := false)));
      assert run.state == after;
      assert run.trace == RanEvents(Schedule(FirstInLastDone, [cancel])) == [Ran(cancel)];
      var called := OnSignal(Some(h), Some(Terminate));
      assert called == [HookCalled(h, Terminate)];
      assert called + run.trace == [HookCalled(h, Terminate), Ran(cancel)];
    }
    assert Shutdown(after) == Success(Outcome(after, []));
  }

  /** A signal that is not watched does not wake the listener: no hook, no run. */
  lemma UnwatchedSignalIgnored(h: HookId, a: ActionId)
    ensures var sa := SetOnSignal(NewShutdownActions(FirstInFirstDone, [Interrupt]), Some(h));
      ListenerFires(AddActions(sa, [a]), Some(Terminate)).Failure?
  {
  }
}

=== FILE: wrappers.dfy ===
/** Optional values and results with an error alternative. */
module Wrappers {

  /** A value that may be absent; stands for a Go value that may be nil. */
  datatype Option<+T> = None | Some(value: T)

  /** Either a value or the reason the operation refused to run. */
  datatype Result<+T, +E> = Success(value: T) | Failure(error: E)
}
